=== FILE: README.md ===
# ILC commercial rent revision, modelled in Dafny

This project models the calculation engine of a French commercial-lease rent
revision simulator. Revisions are indexed on the ILC (Indice des Loyers
Commerciaux), and the "pouvoir d'achat" law temporarily capped rises at 3.5 %
a year. The engine takes a table of quarterly index values, the current annual
rent and a revision quarter written `YEAR-T<n>` (for example `2024-T2`). It
works through these steps:

1. It looks up the revision index and the reference index, three years back
   (`get_indice_value`, `get_offset_trimestre`).
2. It stops unless both indices exist.
3. It looks up the intermediate indices N-1 and N-2.
4. It classifies the quarter into regime A (initial cap, 2022-T2 to 2023-T1),
   B (intermediate cap, 2023-T2 to 2024-T1), C (post-cap, 2024-T2 to 2026-T1)
   or D (common law).
5. It measures the annual index change (the *glissement*) and tests it
   against 3.5 %, inclusive.
6. It applies one of six distinct rent formulas and shows a status badge.

Modules, one per part of the engine:

- `Wrappers`: `Option` and `Result`.
- `Text`: the Python string operations the engine relies on. These are
  `str.split` fields, `int()` on plain numerals and `str()` of an integer.
- `Quarters`: quarter parsing, printing, and the whole-year offset. It also
  holds the classifier's separate reading of the year.
- `Indices`: the index table (rows of quarter text and a positive real) and
  the first-match lookup.
- `Regimes`: the classifier key `year*10 + n` and the four regimes, with the
  same classifier written as a bracket table.
- `CapTest`: the intermediate readings, the glissement and its basis, and the
  cap test.
- `Formulas`: formula selection. It gives each formula in two forms: as the
  program writes it, which is undefined when a needed index is missing, and
  as a total version that reports the missing index. It also holds the
  status badge.
- `Engine`: the whole revision as `Compute = Finish ∘ Prepare`, with a
  `RevisionError` for each way it can stop.
- `Scenarios`: worked end-to-end revisions on small tables.
- `RealArith`: order facts about real products and quotients that the other
  proofs use.

Rents and indices are exact `real`s. The classifier key is the integer
`year*10 + n`, which is exactly ten times the program's `year + n/10` for every
integer `n`.

## Model

| member | source | states |
|---|---|---|
| Text.ParseIntToString | app.py:63-66 | An integer printed by the f-string and read back by `int()` is the same integer, negative years included. |
| Text.ParseInt | app.py:63-64 | `int()` succeeds exactly on an optional minus sign followed by decimal digits. Digits alone give their decimal value, which is non-negative; a leading minus gives the negated value of the digits after it. |
| Text.Field0 | app.py:62-63 | `split(sep)[0]` is a prefix of the text with no earlier occurrence of the separator, and the separator follows it unless it is the whole text. |
| Text.Field1 | app.py:62-64 | `split(sep)[1]` is absent (Python's IndexError) exactly when the separator never occurs; otherwise it lies after an occurrence. |
| Text.Field1IsSecondField | app.py:62-64 | When present, `split(sep)[1]` is exactly the first field of the text after the first occurrence of the separator, and that occurrence ends the first field. |
| Quarters.Parse | app.py:61-64 | Parsing succeeds exactly when a second `-T` field exists and both the first and second fields read as integers; text with no `-T` never parses. A parsed quarter's year and number are those integer readings. |
| Quarters.ParseFormat | app.py:62-66 | Parsing a printed quarter gives that quarter back, for any year and number. |
| Quarters.Offset | app.py:60-67 | The offset succeeds exactly when the text parses. Its result parses to the same number with the year reduced by exactly `years_back`, and it is the printed form of that quarter. |
| Quarters.OffsetFormat | app.py:60-66 | On a printed quarter, the offset prints the quarter `years_back` years earlier with the same number. |
| Quarters.OffsetZero | app.py:60-66 | An offset of zero years is the identity on printed quarters. |
| Quarters.OffsetCompose | app.py:60-66 | Offsets compose additively: offsetting by `a` and then by `b` equals offsetting by `a + b`, for any text the first offset accepts. |
| Quarters.YearForClassifier | app.py:113 | The classifier's year reading, the integer before the first dash, is never negative: a leading minus leaves an empty first field, which is not an integer. |
| Quarters.YearForClassifierAgrees | app.py:113 | The classifier reads the year with `split("-")`, not `split("-T")`. Whenever both readings succeed, they give the same year. |
| Quarters.YearForClassifierOfFormat | app.py:113 | On a printed quarter, the classifier's year reading succeeds exactly for non-negative years and then gives the year. |
| Indices.Lookup | app.py:54-58 | The result is absent exactly when no row's key equals the quarter (so always on an empty table). Otherwise it is the value of the first matching row. |
| Indices.LookupAt | app.py:93-95 | A failed offset (`None`) matches no row. A present key is looked up as usual. |
| Indices.LookupUniqueKey | app.py:56-57 | With distinct keys, looking up a row's key returns that row's value. |
| Indices.LookupAppend | app.py:56-57 | Rows appended after the first match never change the answer. Rows appended to a table without a match answer instead. |
| Regimes.Key | app.py:113 | The key `year*10 + n` is exactly ten times `year + n/10` for every integer year and number; for a one-digit quarter number it keeps the year and the number apart (the year is the key divided by ten, the number the remainder). |
| Regimes.FirstBracket | app.py:115-118 | First-match range test: D when no bracket contains the key; otherwise the regime of the first bracket that contains it, later brackets ignored. |
| Regimes.Classify | app.py:115-118 | The if-chain classifier equals the first-match search over the three inclusive ranges, with D as the default. |
| Regimes.KeyOrderIsCalendarOrder | app.py:113 | For quarter numbers 1 to 4, comparing keys `year*10 + n` is comparing quarters in calendar order. |
| Regimes.ClassifyByCalendar | app.py:113-118 | For quarter numbers 1 to 4, the regime is A, B, C or D exactly when the quarter lies in that regime's calendar span, so the four regimes partition the quarters. |
| Regimes.ClassifyBoundaries | app.py:113-118 | 2022-T1 is D and 2022-T2 is A; 2023-T1 is A and 2023-T2 is B; 2024-T1 is B and 2024-T2 is C; 2026-T1 is C and 2026-T2 is D. |
| CapTest.Variance | app.py:121-128 | The basis is N-1 over N-2 exactly in regime C with both present, and N over N-1 otherwise when N-1 is present. With no N-1 the change is zero. The ratio is the relative rise on its basis. |
| CapTest.Capped | app.py:130 | The cap test holds exactly when the change multiplies the index by at least 1.035, so only a strict rise can trigger it. |
| CapTest.CappedMeansRise | app.py:121-130 | The cap is triggered exactly when the measured index rose by a factor of at least 1.035. A missing N-1 never triggers it. |
| CapTest.RatioThreshold | app.py:130 | `num/den - 1 >= 0.035` holds exactly when `num >= 1.035 × den`, for a positive denominator. |
| CapTest.VarianceIgnoresReference | app.py:121-128 | The glissement never depends on the reference index. |
| Formulas.Select | app.py:137-167 | Plain `rev/ref` is chosen exactly in D and in A without the cap. A cap formula is chosen exactly when the cap is triggered outside D. The reference index is used exactly outside C. Among capped formulas on the reference, the one reading N-1 alone is exactly regime A's. |
| Formulas.Reads | app.py:145-166 | Each formula's intermediate reads in evaluation order: none read twice, none only for `rev/ref`, and both only for uncapped B. |
| Formulas.FirstMissing | app.py:151-167 | Reports the first slot, in Python's evaluation order, whose index is absent, and nothing exactly when all are present. |
| Formulas.Factor | app.py:137-167 | The factor each formula applies to the rent is strictly positive. |
| Formulas.Amount | app.py:137-167 | Each formula as written, defined only when its intermediate indices exist. The amount has the sign of the rent. |
| Formulas.AmountLinear | app.py:137-167 | Every formula multiplies the rent by its factor, so the revised rent is linear in the rent. |
| Formulas.NewRent | app.py:137-167 | The total formula succeeds exactly when every index it reads exists, and then agrees with the formula as written. Otherwise it names an absent slot the formula reads; in uncapped B that is N-2 before N-1. |
| Formulas.CapNeverRaises | app.py:142-167 | In A, B and C, when the cap is triggered, the capped rent never exceeds the uncapped formula's rent, for any non-negative rent, when both formulas can be evaluated. |
| Formulas.CapFactorA | app.py:144-149 | Regime A: `n1/ref × 1.035 <= rev/ref` once `rev >= 1.035 × n1`. |
| Formulas.CapFactorB | app.py:153-157 | Regime B: `n2/ref × 1.035² <= n2/ref × 1.035 × rev/n1` once `rev >= 1.035 × n1`. |
| Formulas.CapFactorC | app.py:162-166 | Regime C: `1.035² × rev/n1 <= 1.035 × rev/n2` once `n1 >= 1.035 × n2`. |
| Formulas.CappedAOrCAlwaysComputes | app.py:123-166 | The capped branches of A and C read only N-1, which the cap test already found present, so they always compute. |
| Formulas.UncheckedReadsCanFail | app.py:151-167 | Capped B, uncapped B and uncapped C can each meet an absent index they read. The witness readings give MissingIntermediate N-2, N-1 and N-2. |
| Formulas.PostCapIgnoresReference | app.py:121-167 | In regime C neither the cap test nor either formula depends on the reference index. |
| Formulas.CommonLawIgnoresCap | app.py:137-149 | Regime D gives `rent × rev/ref` whatever the cap flag, and uncapped A gives the same amount. |
| Formulas.StatusOf | app.py:185-190 | The badge is "common law" exactly in D. It is "cap activated" exactly when the chosen formula applies the cap, and "under cap" exactly outside D without the cap. |
| Engine.Prepare | app.py:93-130 | Failures: empty table (exactly when the table has no row), then malformed quarter (including a negative year, which line 113's reading rejects), then missing revision index, then missing reference index. A missing revision index is reported exactly when the quarter parses and its lookup fails; a missing reference index exactly when the revision index exists but the reference lookup fails. With a non-empty table, a parsable quarter, both readings of its year and both mandatory indices, the plan always succeeds. On success the readings are the four lookups, the regime is the classification of the parsed quarter, the glissement is measured on those readings, the cap flag is the cap test on it, and the formula is the one selected for the regime and cap. A successful plan always had the classifier's year reading agree with the parsed year. |
| Engine.Finish | app.py:132-190 | A failed plan passes its error through. A plan succeeds exactly when its formula's indices exist. On success every decision is the plan's, the factor is the plan formula's factor, the revised rent is what that formula gives on the rent, and the badge is the one for the plan's regime and cap flag; the rent is that factor times the rent, with a positive factor. A successful plan can only fail with `MissingIntermediate`, naming the slot the total formula reports. A reported missing slot is absent from the readings. |
| Engine.Compute | app.py:93-190 | A rent is produced exactly when the plan succeeds and every intermediate index its formula reads exists; so no rent unless the revision and reference indices both exist. The readings are the four lookups and the regime is the classification of the parsed quarter. The glissement is measured on those readings in that regime, the cap flag is its test against 3.5 %, the formula is the one selected for regime and cap, the revised rent is that formula applied to the rent, and the badge matches regime and cap. The result is the rent times a positive factor. A failure is `MissingIntermediate` exactly when the plan succeeded; it names a slot the selected formula reads, and the lookup that failed. The factor is the selected formula's factor on the readings. |
| Engine.CommonLawAlwaysComputes | app.py:104-138 | Once the plan succeeds in regime D, a rent is always produced, since `rev/ref` reads no intermediate index. |
| Engine.FinishIgnoresRent | app.py:137-167 | For any plan, the rent changes neither success nor failure nor any decision, only the amount. |
| Engine.RentOnlyScales | app.py:104-167 | For any table and quarter, two rents give the same success, the same error and the same regime, readings, cap decision, formula, factor and status. |
| Scenarios.PrepareOnText | app.py:93-130 | For any quarter text that parses, whose two year readings agree and whose four lookups are known, the plan is the classification, glissement, cap test and formula of those readings. |
| Scenarios.PrepareFound | app.py:93-130 | On a printed quarter with a non-negative year and its revision and reference indices present, the plan is the classification, glissement, cap test and formula of the readings found. |
| Scenarios.CappedRevisionInRegimeA | app.py:93-145 | Regime A quarter (for example 2023-T1) with indices 120 (reference), 130 (N-1) and 137: the cap applies and a rent of 1000 becomes exactly 1121.25, shown as "cap activated". |
| Scenarios.CappedValueInRegimeB | app.py:151-154 | Regime B readings reference 100, N-2 104, N-1 120, revision 126: the 5 % rise triggers the cap and a rent of 1000 becomes 1000 × 104/100 × 1.035² = 1114.074. |
| Scenarios.UncappedFormulaValueInRegimeB | app.py:156-157 | On the same readings the uncapped regime B formula would give 1000 × 104/100 × 1.035 × 126/120 = 1130.22. |
| Scenarios.UncappedValueInRegimeB | app.py:151-157 | With a 2 % rise (revision 122.4) the cap is not triggered and the rent becomes 1000 × 104/100 × 1.035 × 122.4/120 = 1097.928. |
| Scenarios.CappedValueInRegimeC | app.py:160-163 | Regime C with N-2 100 and N-1 104 (a 4 % prior-year rise): the cap applies and a rent of 1000 becomes 1000 × 1.035² × 130/104 = 1339.03125. |
| Scenarios.UncappedValueInRegimeC | app.py:160-166 | Regime C with N-2 125 and N-1 127: no cap, and a rent of 1000 with revision index 137 becomes 1000 × 1.035 × 137/125 = 1134.36. |
| Scenarios.CappedRevisionInRegimeBMissesN2 | app.py:104-154 | The same table under regime B (for example 2023-T2) triggers the cap. The capped formula needs the absent N-2, so the revision reports it missing instead of a rent. |

## Left out

- The Streamlit interface, CSS, metrics, expanders and explanation text are left out (app.py:73-100, 169-227). They only display the engine's results. The variance basis and the chosen formula are enum tags (`Basis`, `Formula`), not LaTeX or French strings.
- Loading the Excel file and stripping keys is I/O (app.py:41-52). The table is given as a sequence of rows. The program's stop on an empty table (app.py:76-78) is the `EmptyIndexSource` error.
- IEEE-754 doubles are not modelled: rents and indices are exact reals. The classifier's `year + n/10` is replaced by the integer `year*10 + n`. The double sums round to the same values as the bracket literals, so this loses nothing observable there.
- CapTest.Capped: the 3.5 % test at app.py:130 is exact in the model but not in the program. In doubles `103.5/100 - 1` is `0.03499999999999992`, below `0.035`, so the program does not cap an exact 3.5 % rise, while the model (and `CapTest.CappedMeansRise`) does. Only rises within a rounding error of 3.5 % are affected.
- An index of `0.0` is falsy in Python and counts as missing there. The model's indices are positive reals (`Index`), so presence is exactly Python truthiness.
- Python's `int()` leniencies (surrounding whitespace, a `+` sign, underscores, non-ASCII digits) are not modelled. The model accepts an optional minus sign followed by ASCII digits. The minus sign is kept because printed offsets can go below year 0 and must read back.
- The quarter number is not range-checked, matching the code; `Regimes.ClassifyByCalendar` and `Regimes.KeyOrderIsCalendarOrder` assume numbers 1 to 4, since the calendar reading only makes sense there.
- The program's error paths are collapsed into `RevisionError` values. A year before 0 makes line 113's `split("-")` reading raise ValueError, and that becomes `MalformedQuarter`. A quarter that does not parse makes the program show "Indice None manquant", which is also `MalformedQuarter`.

## Findings

| source | as written | input that shows it | evidently intended | confidence | as-written member | corrected member |
|---|---|---|---|---|---|---|
| app.py:151-167 | Regime B (both branches) and uncapped regime C read `ilc_n1` or `ilc_n2` without checking them; an absent index is `None` and the division raises TypeError (exhibited by `Formulas.UncheckedReadsCanFail` and `Scenarios.CappedRevisionInRegimeBMissesN2`) | Revision at 2023-T2 with indices 120 at 2020-T2, 130 at 2022-T2, 137 at 2023-T2 and no 2021-T2 row: the cap triggers and `ilc_n2 / ilc_ref` divides `None` | report the missing intermediate index instead of crashing | not executed | Formulas.Amount | Formulas.NewRent |

=== FILE: arith.dfy ===
/** Order facts about products and quotients of reals that the solver does not find unaided. */
module RealArith {

  lemma MulPositive(a: real, b: real)
    requires a > 0.0 && b > 0.0
    ensures a * b > 0.0
  {
  }

  lemma MulNonNegative(a: real, b: real)
    requires a >= 0.0 && b > 0.0
    ensures a * b >= 0.0
  {
  }

  lemma MulNegative(a: real, b: real)
    requires a < 0.0 && b > 0.0
    ensures a * b < 0.0
  {
  }

  /** Multiplying by a non-negative number keeps the order. */
  lemma MulMonotone(a: real, b: real, c: real)
    requires a <= b && c >= 0.0
    ensures a * c <= b * c && c * a <= c * b
  {
  }

  /** A product kept as one term, so that equalities between products are matched without arithmetic. */
  function Times(a: real, b: real): (r: real)
    ensures a > 0.0 && b > 0.0 ==> r > 0.0
  {
    a * b
  }

  /** Two amounts obtained by scaling ordered factors by the same non-negative rent stay ordered. */
  lemma ScaledOrder(rent: real, x: real, y: real, ax: real, ay: real)
    requires rent >= 0.0 && x <= y && ax == Times(rent, x) && ay == Times(rent, y)
    ensures ax <= ay
  {
    MulMonotone(x, y, rent);
  }

  /** Scaling `a × c` once more by `r >= c` gives at least `a × c²`. */
  lemma ScaleAgainOrder(a: real, c: real, r: real)
    requires a > 0.0 && c > 0.0 && c <= r
    ensures a * (c * c) <= a * c * r
  {
    MulMonotone(c, r, a * c);
    assert a * (c * c) == a * c * c;
  }

  /** Dividing by a positive number keeps the order. */
  lemma DivMonotone(a: real, b: real, d: real)
    requires a <= b && d > 0.0
    ensures a / d <= b / d
  {
  }

  /** Multiplication by a positive factor keeps the sign of the amount. */
  function Scale(amount: real, factor: real): (r: real)
    requires factor > 0.0
    ensures r > 0.0 <==> amount > 0.0
    ensures r == 0.0 <==> amount == 0.0
  {
    if amount > 0.0 then
      MulPositive(amount, factor);
      amount * factor
    else if amount < 0.0 then
      MulNegative(amount, factor);
      amount * factor
    else
      amount * factor
  }

  /** Scaling is plain multiplication, whatever the sign of the amount. */
  lemma ScaleIsProduct(amount: real, factor: real)
    requires factor > 0.0
    ensures Scale(amount, factor) == amount * factor
  {
  }
}

=== FILE: captest.dfy ===
/**
  The annual index change ("glissement") and the 3.5 % cap test that
  decides between the capped and the plain formula of a regime.
 */
module CapTest {
  import opened Wrappers
  import opened Indices
  import opened Regimes
  import opened RealArith

  /** The statutory cap on the annual index change: 3.5 %. */
  const CapThreshold: real := 0.035

  /** The multiplier of a 3.5 % increase. */
  const CapFactor: real := 1.035

  /**
    The four index values of a revision: the revision quarter (`rev`),
    three years back (`ref`), one year back (`n1`) and two years back
    (`n2`). The computation only starts once `rev` and `ref` are known;
    the intermediate two may be missing.
   */
  datatype Readings = Readings(rev: Index, ref: Index, n1: Option<Index>, n2: Option<Index>)

  /** The intermediate indices a formula may read. */
  datatype Slot = N1 | N2

  function Intermediate(ix: Readings, slot: Slot): Option<Index>
  {
    match slot
    case N1 => ix.n1
    case N2 => ix.n2
  }

  /** Which ratio the annual change was measured on. */
  datatype Basis =
    | PriorYear    // N-1 over N-2
    | CurrentYear  // N over N-1
    | NoData       // neither ratio available: the change is taken as zero

  datatype Glissement = Glissement(ratio: real, basis: Basis)

  /**
    The annual index change tested against the cap. Regime C measures
    the previous year's change when both intermediate indices exist;
    otherwise the current year's change is used when N-1 exists; with
    no N-1 the change is zero.
   */
  function Variance(regime: Regime, ix: Readings): (g: Glissement)
    ensures g.basis == NoData <==> ix.n1.None?
    ensures g.basis == PriorYear <==> regime == C && ix.n1.Some? && ix.n2.Some?
    ensures g.basis == PriorYear ==> (1.0 + g.ratio) * ix.n2.value == ix.n1.value
    ensures g.basis == CurrentYear ==> (1.0 + g.ratio) * ix.n1.value == ix.rev
    ensures g.basis == NoData ==> g.ratio == 0.0
  {
    if regime == C && ix.n1.Some? && ix.n2.Some? then
      Glissement(ix.n1.value / ix.n2.value - 1.0, PriorYear)
    else if ix.n1.Some? then
      Glissement(ix.rev / ix.n1.value - 1.0, CurrentYear)
    else
      Glissement(0.0, NoData)
  }

  /**
    The cap test: an annual change of 3.5 % or more, inclusive, that is
    an index multiplied by at least 1.035 over the year.
   */
  predicate Capped(g: Glissement): (capped: bool)
    ensures capped <==> 1.0 + g.ratio >= CapFactor
    ensures capped ==> g.ratio > 0.0
  {
    g.ratio >= CapThreshold
  }

  /**
    The cap is triggered exactly when the measured index rises by at
    least 3.5 % over the year; missing data never triggers it, and a
    triggered cap always had N-1 available.
   */
  lemma CappedMeansRise(regime: Regime, ix: Readings)
    ensures var g := Variance(regime, ix);
            Capped(g) <==> (g.basis == PriorYear && ix.n1.value >= CapFactor * ix.n2.value)
                           || (g.basis == CurrentYear && ix.rev >= CapFactor * ix.n1.value)
    ensures Capped(Variance(regime, ix)) ==> ix.n1.Some? && Variance(regime, ix).basis != NoData
  {
    var g := Variance(regime, ix);
    if g.basis == PriorYear {
      RatioThreshold(g.ratio, ix.n1.value, ix.n2.value);
    } else if g.basis == CurrentYear {
      RatioThreshold(g.ratio, ix.rev, ix.n1.value);
    }
  }

  /** `num / den - 1 >= 0.035` is `num >= 1.035 * den` for a positive denominator. */
  lemma RatioThreshold(ratio: real, num: real, den: real)
    requires den > 0.0 && (1.0 + ratio) * den == num
    ensures ratio >= CapThreshold <==> num >= CapFactor * den
  {
    assert num - CapFactor * den == (ratio - CapThreshold) * den;
    if ratio >= CapThreshold {
      MulNonNegative(ratio - CapThreshold, den);
    } else {
      MulNegative(ratio - CapThreshold, den);
    }
  }

  /** The annual change never reads the reference index. */
  lemma VarianceIgnoresReference(regime: Regime, ix: Readings, other: Index)
    ensures Variance(regime, ix) == Variance(regime, ix.(ref := other))
  {
  }
}

=== FILE: engine.dfy ===
/**
  The whole rent revision, from (index table, current rent, revision
  quarter) to the regime, the cap decision, the selected formula and
  the revised rent, or to the reason none could be computed.
 */
module Engine {
  import opened Wrappers
  import opened Indices
  import opened Quarters
  import opened Regimes
  import opened CapTest
  import opened Formulas
  import opened RealArith

  /** Why a revision could not be computed. */
  datatype RevisionError =
    | EmptyIndexSource                  // the index table holds no row
    | MalformedQuarter                  // the revision quarter text does not read as a quarter
    | MissingRevisionIndex              // no index for the revision quarter
    | MissingReferenceIndex             // no index three years back
    | MissingIntermediate(slot: Slot)   // the chosen formula needs an absent N-1 or N-2 index

  /** What the engine decides before the rent enters. */
  datatype Plan = Plan(
    regime: Regime,
    readings: Readings,
    glissement: Glissement,
    capped: bool,
    formula: Formula)

  /**
    Everything up to the formula: look up the revision and reference
    indices, stop unless both exist, then look up N-1 and N-2, classify
    the revision quarter, measure the annual change, test the cap, and
    select the formula. The rent plays no part.
   */
  function Prepare(table: Table, rev: string): (r: Result<Plan, RevisionError>)
    ensures r == Failure(EmptyIndexSource) <==> |table| == 0
    ensures |table| > 0 && Parse(rev).None? ==> r == Failure(MalformedQuarter)
    ensures r.Success? ==>
              && Lookup(table, rev) == Some(r.value.readings.rev)
              && LookupAt(table, Offset(rev, 3)) == Some(r.value.readings.ref)
              && LookupAt(table, Offset(rev, 1)) == r.value.readings.n1
              && LookupAt(table, Offset(rev, 2)) == r.value.readings.n2
    ensures r.Success? ==>
              && Parse(rev).Some?
              && r.value.regime == Classify(Key(Parse(rev).value.year, Parse(rev).value.number))
    ensures r.Success? ==> r.value.glissement == Variance(r.value.regime, r.value.readings)
    ensures r.Success? ==> (r.value.capped <==> Capped(r.value.glissement))
    ensures r.Success? ==> r.value.formula == Select(r.value.regime, r.value.capped)
    ensures r.Failure? ==> !r.error.MissingIntermediate?
    ensures r.Success? ==> YearForClassifier(rev) == Some(Parse(rev).value.year)
    ensures r == Failure(MissingRevisionIndex) <==>
              |table| > 0 && Parse(rev).Some? && Lookup(table, rev).None?
    ensures r == Failure(MissingReferenceIndex) <==>
              |table| > 0 && Parse(rev).Some? && Lookup(table, rev).Some?
              && LookupAt(table, Offset(rev, 3)).None?
    ensures (&& |table| > 0 && Parse(rev).Some? && YearForClassifier(rev).Some?
             && Lookup(table, rev).Some? && LookupAt(table, Offset(rev, 3)).Some?)
            ==> r.Success?
  {
    if |table| == 0 then Failure(EmptyIndexSource)
    else
      var ilcRev := Lookup(table, rev);
      var ilcRef := LookupAt(table, Offset(rev, 3));
      if ilcRev.None? || ilcRef.None? then
        if Parse(rev).None? then Failure(MalformedQuarter)
        else if ilcRev.None? then Failure(MissingRevisionIndex)
        else Failure(MissingReferenceIndex)
      else
        var ix := Readings(ilcRev.value, ilcRef.value,
                           LookupAt(table, Offset(rev, 1)), LookupAt(table, Offset(rev, 2)));
        var year := YearForClassifier(rev);
        if year.None? then Failure(MalformedQuarter)
        else
          var quarter := Parse(rev).value;
          YearForClassifierAgrees(rev);
          var regime := Classify(Key(year.value, quarter.number));
          var g := Variance(regime, ix);
          var capped := Capped(g);
          Success(Plan(regime, ix, g, capped, Select(regime, capped)))
  }

  /**
    Everything the engine hands to the display: the decisions, the
    factor applied to the rent, the revised rent and the status badge.
   */
  datatype RevisionResult = RevisionResult(
    regime: Regime,
    readings: Readings,
    glissement: Glissement,
    capped: bool,
    formula: Formula,
    factor: real,
    newRent: real,
    status: Status)

  /** Evaluates the plan's formula on the rent; a failed plan passes its error through. */
  function Finish(plan: Result<Plan, RevisionError>, rent: real): (r: Result<RevisionResult, RevisionError>)
    ensures plan.Failure? ==> r == Failure(plan.error)
    ensures plan.Success? ==>
              (r.Success? <==> Available(plan.value.readings, Reads(plan.value.formula)))
    ensures r.Success? ==> r.value.newRent == Times(rent, r.value.factor) && r.value.factor > 0.0
    ensures r.Failure? && r.error.MissingIntermediate? && plan.Success? ==>
              Intermediate(plan.value.readings, r.error.slot).None?
    ensures plan.Success? && r.Failure? ==>
              && r.error.MissingIntermediate?
              && NewRent(plan.value.formula, rent, plan.value.readings) == Failure(r.error.slot)
    ensures plan.Success? && r.Success? ==>
              && r.value.regime == plan.value.regime
              && r.value.readings == plan.value.readings
              && r.value.glissement == plan.value.glissement
              && r.value.capped == plan.value.capped
              && r.value.formula == plan.value.formula
    ensures plan.Success? && r.Success? ==>
              && r.value.factor == Factor(plan.value.formula, plan.value.readings)
              && NewRent(plan.value.formula, rent, plan.value.readings) == Success(r.value.newRent)
              && r.value.status == StatusOf(plan.value.regime, plan.value.capped)
  {
    match plan
    case Failure(e) => Failure(e)
    case Success(p) =>
      match NewRent(p.formula, rent, p.readings)
      case Failure(slot) => Failure(MissingIntermediate(slot))
      case Success(amount) =>
        AmountLinear(p.formula, rent, p.readings);
        Success(RevisionResult(p.regime, p.readings, p.glissement, p.capped, p.formula,
                               Factor(p.formula, p.readings), amount, StatusOf(p.regime, p.capped)))
  }

  /**
    The whole revision. Nothing is computed unless both the revision
    and the reference index exist; the result is the rent times a
    positive factor; a missing intermediate index is reported rather
    than read.
   */
  function Compute(table: Table, rent: real, rev: string): (r: Result<RevisionResult, RevisionError>)
    ensures |table| == 0 ==> r == Failure(EmptyIndexSource)
    ensures |table| > 0 && Parse(rev).None? ==> r == Failure(MalformedQuarter)
    ensures r.Success? || r.error.MissingIntermediate? ==>
              Lookup(table, rev).Some? && LookupAt(table, Offset(rev, 3)).Some?
    ensures r.Success? ==>
              && Lookup(table, rev) == Some(r.value.readings.rev)
              && LookupAt(table, Offset(rev, 3)) == Some(r.value.readings.ref)
              && LookupAt(table, Offset(rev, 1)) == r.value.readings.n1
              && LookupAt(table, Offset(rev, 2)) == r.value.readings.n2
    ensures r.Success? ==>
              && Parse(rev).Some?
              && r.value.regime == Classify(Key(Parse(rev).value.year, Parse(rev).value.number))
    ensures r.Success? ==> (r.value.capped <==> Capped(r.value.glissement))
    ensures r.Success? ==> r.value.newRent == Times(rent, r.value.factor) && r.value.factor > 0.0
    ensures r.Failure? && r.error.MissingIntermediate? ==>
              LookupAt(table, Offset(rev, if r.error.slot == N1 then 1 else 2)).None?
    ensures r.Failure? ==> (r.error.MissingIntermediate? <==> Prepare(table, rev).Success?)
    ensures r.Success? <==>
              && Prepare(table, rev).Success?
              && Available(Prepare(table, rev).value.readings, Reads(Prepare(table, rev).value.formula))
    ensures r.Failure? && r.error.MissingIntermediate? ==>
              r.error.slot in Reads(Prepare(table, rev).value.formula)
    ensures r.Success? ==>
              && Available(r.value.readings, Reads(r.value.formula))
              && r.value.factor == Factor(r.value.formula, r.value.readings)
    ensures r.Success? ==>
              && r.value.glissement == Variance(r.value.regime, r.value.readings)
              && r.value.formula == Select(r.value.regime, r.value.capped)
              && NewRent(r.value.formula, rent, r.value.readings) == Success(r.value.newRent)
              && r.value.status == StatusOf(r.value.regime, r.value.capped)
  {
    Finish(Prepare(table, rev), rent)
  }

  /**
    Once both mandatory indices are found, common law always produces a
    rent: its formula reads no intermediate index.
   */
  lemma CommonLawAlwaysComputes(table: Table, rent: real, rev: string)
    ensures Prepare(table, rev).Success? && Prepare(table, rev).value.regime == D ==>
              Compute(table, rent, rev).Success?
  {
    if Prepare(table, rev).Success? && Prepare(table, rev).value.regime == D {
      assert Reads(Prepare(table, rev).value.formula) == [];
    }
  }

  /**
    The rent only scales the result: whether the revision succeeds, why
    it fails, and every decision and factor are the same for any two
    rents.
   */
  lemma RentOnlyScales(table: Table, rent: real, other: real, rev: string)
    ensures Compute(table, rent, rev).Success? <==> Compute(table, other, rev).Success?
    ensures Compute(table, rent, rev).Failure? ==> Compute(table, rent, rev) == Compute(table, other, rev)
    ensures Compute(table, rent, rev).Success? ==>
              Compute(table, rent, rev).value.(newRent := 0.0) == Compute(table, other, rev).value.(newRent := 0.0)
  {
    FinishIgnoresRent(Prepare(table, rev), rent, other);
  }

  /** The formula step, for any plan, is independent of the rent except for the amount. */
  lemma FinishIgnoresRent(plan: Result<Plan, RevisionError>, rent: real, other: real)
    ensures Finish(plan, rent).Success? <==> Finish(plan, other).Success?
    ensures Finish(plan, rent).Failure? ==> Finish(plan, rent) == Finish(plan, other)
    ensures Finish(plan, rent).Success? ==>
              Finish(plan, rent).value.(newRent := 0.0) == Finish(plan, other).value.(newRent := 0.0)
  {
  }
}

=== FILE: formulas.dfy ===
/**
  The formula dispatch: which of the legal formulas a regime and a cap
  decision select, which indices each formula reads, and the revised
  rent it produces.
 */
module Formulas {
  import opened Wrappers
  import opened Indices
  import opened Regimes
  import opened RealArith
  import opened CapTest

  /** The seven branches of the dispatch, as the six distinct formulas they use. */
  datatype Formula =
    | RevOverRef              // rent × rev/ref: regime D, and regime A under the cap
    | CappedN1OverRef         // rent × n1/ref × 1.035: regime A capped
    | CappedN2OverRef         // rent × n2/ref × 1.035²: regime B capped
    | N2OverRefThenRevOverN1  // rent × n2/ref × 1.035 × rev/n1: regime B under the cap
    | CappedRevOverN1         // rent × 1.035² × rev/n1: regime C capped
    | RevOverN2               // rent × 1.035 × rev/n2: regime C under the cap

  /** The formulas that apply the cap. */
  predicate IsCapFormula(f: Formula)
  {
    f == CappedN1OverRef || f == CappedN2OverRef || f == CappedRevOverN1
  }

  /** The formulas that divide by the reference index. */
  predicate UsesRef(f: Formula)
  {
    f == RevOverRef || f == CappedN1OverRef || f == CappedN2OverRef || f == N2OverRefThenRevOverN1
  }

  /**
    The formula for a regime and cap decision. Common law ignores the
    cap and shares its formula with regime A under the cap; a cap
    formula is chosen exactly when the cap is triggered outside common
    law; the post-cap formulas never use the reference index.
   */
  function Select(regime: Regime, capped: bool): (f: Formula)
    ensures regime == D || (regime == A && !capped) <==> f == RevOverRef
    ensures IsCapFormula(f) <==> capped && regime != D
    ensures UsesRef(f) <==> regime != C
    ensures IsCapFormula(f) && UsesRef(f) ==> (Reads(f) == [N1] <==> regime == A)
  {
    match regime
    case D => RevOverRef
    case A => if capped then CappedN1OverRef else RevOverRef
    case B => if capped then CappedN2OverRef else N2OverRefThenRevOverN1
    case C => if capped then CappedRevOverN1 else RevOverN2
  }

  /**
    The intermediate indices a formula reads, in the order the program
    evaluates them. No index is read twice; only the formula on the
    reference alone reads none, and only regime B under the cap chains
    both intermediate years.
   */
  function Reads(f: Formula): (slots: seq<Slot>)
    ensures forall i, j :: 0 <= i < j < |slots| ==> slots[i] != slots[j]
    ensures |slots| == 0 <==> f == RevOverRef
    ensures |slots| == 2 <==> f == N2OverRefThenRevOverN1
  {
    match f
    case RevOverRef => []
    case CappedN1OverRef => [N1]
    case CappedN2OverRef => [N2]
    case N2OverRefThenRevOverN1 => [N2, N1]
    case CappedRevOverN1 => [N1]
    case RevOverN2 => [N2]
  }

  /** Every slot in `slots` holds an index. */
  predicate Available(ix: Readings, slots: seq<Slot>)
  {
    forall k :: 0 <= k < |slots| ==> Intermediate(ix, slots[k]).Some?
  }

  /** The first slot of `slots` that holds no index, if any. */
  function FirstMissing(ix: Readings, slots: seq<Slot>): (r: Option<Slot>)
    ensures r.None? <==> Available(ix, slots)
    ensures r.Some? ==> exists k :: 0 <= k < |slots| && slots[k] == r.value
                                    && Intermediate(ix, r.value).None?
                                    && Available(ix, slots[..k])
  {
    if |slots| == 0 then None
    else if Intermediate(ix, slots[0]).None? then
      assert slots[..0] == [];
      Some(slots[0])
    else
      var r := FirstMissing(ix, slots[1..]);
      assert forall k :: 1 <= k < |slots| ==> slots[k] == slots[1..][k - 1];
      if r.Some? then
        var k :| 0 <= k < |slots[1..]| && slots[1..][k] == r.value
                 && Intermediate(ix, r.value).None? && Available(ix, slots[1..][..k]);
        assert slots[..k + 1] == [slots[0]] + slots[1..][..k];
        r
      else
        r
  }

  /**
    The multiplier a formula applies to the rent, written as one product
    of index ratios and cap factors; it depends only on the indices.
   */
  function Factor(f: Formula, ix: Readings): (factor: real)
    requires Available(ix, Reads(f))
    ensures factor > 0.0
  {
    assert forall k :: 0 <= k < |Reads(f)| ==> Intermediate(ix, Reads(f)[k]).Some?;
    match f
    case RevOverRef => ix.rev / ix.ref
    case CappedN1OverRef =>
      assert Reads(f)[0] == N1;
      Scale(ix.n1.value / ix.ref, CapFactor)
    case CappedN2OverRef =>
      assert Reads(f)[0] == N2;
      Scale(ix.n2.value / ix.ref, CapFactor * CapFactor)
    case N2OverRefThenRevOverN1 =>
      assert Reads(f)[0] == N2 && Reads(f)[1] == N1;
      Scale(Scale(ix.n2.value / ix.ref, CapFactor), ix.rev / ix.n1.value)
    case CappedRevOverN1 =>
      assert Reads(f)[0] == N1;
      Scale(CapFactor * CapFactor, ix.rev / ix.n1.value)
    case RevOverN2 =>
      assert Reads(f)[0] == N2;
      Scale(CapFactor, ix.rev / ix.n2.value)
  }

  /**
    The revised rent as the program writes each formula, factor by
    factor in the program's order. It reads intermediate
    indices unchecked, so it is only defined when they are present.
   */
  function Amount(f: Formula, rent: real, ix: Readings): (amount: real)
    requires Available(ix, Reads(f))
    ensures amount > 0.0 <==> rent > 0.0
    ensures amount == 0.0 <==> rent == 0.0
  {
    assert forall k :: 0 <= k < |Reads(f)| ==> Intermediate(ix, Reads(f)[k]).Some?;
    match f
    case RevOverRef =>
      Scale(rent, ix.rev / ix.ref)
    case CappedN1OverRef =>
      assert Reads(f)[0] == N1;
      Scale(Scale(rent, ix.n1.value / ix.ref), CapFactor)
    case CappedN2OverRef =>
      assert Reads(f)[0] == N2;
      Scale(Scale(rent, ix.n2.value / ix.ref), CapFactor * CapFactor)
    case N2OverRefThenRevOverN1 =>
      assert Reads(f)[0] == N2 && Reads(f)[1] == N1;
      Scale(Scale(Scale(rent, ix.n2.value / ix.ref), CapFactor), ix.rev / ix.n1.value)
    case CappedRevOverN1 =>
      assert Reads(f)[0] == N1;
      Scale(Scale(rent, CapFactor * CapFactor), ix.rev / ix.n1.value)
    case RevOverN2 =>
      assert Reads(f)[0] == N2;
      Scale(Scale(rent, CapFactor), ix.rev / ix.n2.value)
  }

  /** Every formula is linear in the rent: it multiplies the rent by the formula's factor. */
  lemma AmountLinear(f: Formula, rent: real, ix: Readings)
    requires Available(ix, Reads(f))
    ensures Amount(f, rent, ix) == Times(rent, Factor(f, ix))
  {
    assert forall k :: 0 <= k < |Reads(f)| ==> Intermediate(ix, Reads(f)[k]).Some?;
    match f
    case RevOverRef =>
    case CappedN1OverRef =>
      assert Reads(f)[0] == N1;
      MulAssoc(rent, ix.n1.value / ix.ref, CapFactor);
    case CappedN2OverRef =>
      assert Reads(f)[0] == N2;
      MulAssoc(rent, ix.n2.value / ix.ref, CapFactor * CapFactor);
    case N2OverRefThenRevOverN1 =>
      assert Reads(f)[0] == N2 && Reads(f)[1] == N1;
      var x, y := ix.n2.value / ix.ref, ix.rev / ix.n1.value;
      MulAssoc(rent, x, CapFactor);
      MulAssoc(rent, x * CapFactor, y);
    case CappedRevOverN1 =>
      assert Reads(f)[0] == N1;
      MulAssoc(rent, CapFactor * CapFactor, ix.rev / ix.n1.value);
    case RevOverN2 =>
      assert Reads(f)[0] == N2;
      MulAssoc(rent, CapFactor, ix.rev / ix.n2.value);
  }

  lemma MulAssoc(a: real, b: real, c: real)
    ensures a * b * c == a * (b * c)
  {
  }

  /**
    The revised rent with the missing-index check the program leaves
    out: a formula that would read an absent intermediate index fails
    with the first such slot in evaluation order.
   */
  function NewRent(f: Formula, rent: real, ix: Readings): (r: Result<real, Slot>)
    ensures r.Success? <==> Available(ix, Reads(f))
    ensures r.Success? ==> r.value == Amount(f, rent, ix)
    ensures r.Failure? ==> Intermediate(ix, r.error).None? && r.error in Reads(f)
    ensures r.Failure? && f == N2OverRefThenRevOverN1 ==> r.error == (if ix.n2.None? then N2 else N1)
  {
    match FirstMissing(ix, Reads(f))
    case Some(slot) => Failure(slot)
    case None => Success(Amount(f, rent, ix))
  }

  /**
    When the cap is triggered (regime A, B or C) and both formulas of the
    regime can be evaluated, the capped rent never exceeds the rent
    under the uncapped formula, for any non-negative rent.
   */
  lemma CapNeverRaises(regime: Regime, rent: real, ix: Readings)
    requires regime != D && Capped(Variance(regime, ix))
    requires Available(ix, Reads(Select(regime, true))) && Available(ix, Reads(Select(regime, false)))
    requires rent >= 0.0
    ensures Amount(Select(regime, true), rent, ix) <= Amount(Select(regime, false), rent, ix)
  {
    var capped, uncapped := Select(regime, true), Select(regime, false);
    assert Factor(capped, ix) <= Factor(uncapped, ix) by {
      CappedMeansRise(regime, ix);
      match regime
      case A => CapFactorA(ix);
      case B =>
        assert Intermediate(ix, Reads(capped)[0]).Some?;
        CapFactorB(ix);
      case C =>
        assert Intermediate(ix, Reads(uncapped)[0]).Some?;
        CapFactorC(ix);
    }
    AmountLinear(capped, rent, ix);
    AmountLinear(uncapped, rent, ix);
    ScaledOrder(rent, Factor(capped, ix), Factor(uncapped, ix),
                Amount(capped, rent, ix), Amount(uncapped, rent, ix));
  }

  /** Regime A: `n1/ref × 1.035 <= rev/ref` once `rev >= 1.035 × n1`. */
  lemma CapFactorA(ix: Readings)
    requires ix.n1.Some? && ix.rev >= CapFactor * ix.n1.value
    ensures Factor(CappedN1OverRef, ix) <= Factor(RevOverRef, ix)
  {
    var n1 := ix.n1.value;
    assert Factor(CappedN1OverRef, ix) == CapFactor * n1 / ix.ref;
    DivMonotone(CapFactor * n1, ix.rev, ix.ref);
  }

  /** Regime B: `n2/ref × 1.035² <= n2/ref × 1.035 × rev/n1` once `rev >= 1.035 × n1`. */
  lemma CapFactorB(ix: Readings)
    requires ix.n1.Some? && ix.n2.Some? && ix.rev >= CapFactor * ix.n1.value
    ensures Factor(CappedN2OverRef, ix) <= Factor(N2OverRefThenRevOverN1, ix)
  {
    var n1, n2 := ix.n1.value, ix.n2.value;
    var a, r := n2 / ix.ref, ix.rev / n1;
    assert Reads(CappedN2OverRef)[0] == N2;
    assert Factor(CappedN2OverRef, ix) == Scale(a, CapFactor * CapFactor);
    assert Reads(N2OverRefThenRevOverN1)[1] == N1;
    assert Factor(N2OverRefThenRevOverN1, ix) == Scale(Scale(a, CapFactor), r);
    ScaleIsProduct(a, CapFactor * CapFactor);
    ScaleIsProduct(a, CapFactor);
    ScaleIsProduct(Scale(a, CapFactor), r);
    DivMonotone(CapFactor * n1, ix.rev, n1);
    assert CapFactor <= r;
    ScaleAgainOrder(a, CapFactor, r);
  }

  /** Regime C: `1.035² × rev/n1 <= 1.035 × rev/n2` once `n1 >= 1.035 × n2`. */
  lemma CapFactorC(ix: Readings)
    requires ix.n1.Some? && ix.n2.Some? && ix.n1.value >= CapFactor * ix.n2.value
    ensures Factor(CappedRevOverN1, ix) <= Factor(RevOverN2, ix)
  {
    var rev, n1, n2 := ix.rev, ix.n1.value, ix.n2.value;
    var lhs, rhs := CapFactor * (rev / n1), rev / n2;
    assert lhs == rev * CapFactor / n1;
    assert rev * CapFactor * n2 <= rev * n1;
    assert lhs <= rhs;
    MulMonotone(lhs, rhs, CapFactor);
    assert Factor(CappedRevOverN1, ix) == CapFactor * CapFactor * (rev / n1);
  }

  /** Cap-triggered branches of regimes A and C read only what the cap test already found present. */
  lemma CappedAOrCAlwaysComputes(regime: Regime, rent: real, ix: Readings)
    requires regime == A || regime == C
    requires Capped(Variance(regime, ix))
    ensures NewRent(Select(regime, true), rent, ix).Success?
  {
    CappedMeansRise(regime, ix);
    assert Reads(Select(regime, true)) == [N1];
  }

  /**
    The remaining branches can read an intermediate index nobody checked:
    regime B with or without the cap, and regime C under the cap.
   */
  lemma UncheckedReadsCanFail()
    ensures var ix := Readings(110.0, 100.0, Some(100.0), None);
            Capped(Variance(B, ix)) && NewRent(Select(B, true), 1.0, ix) == Failure(N2)
    ensures var ix := Readings(101.0, 100.0, None, Some(100.0));
            !Capped(Variance(B, ix)) && NewRent(Select(B, false), 1.0, ix) == Failure(N1)
    ensures var ix := Readings(101.0, 100.0, Some(100.0), None);
            !Capped(Variance(C, ix)) && NewRent(Select(C, false), 1.0, ix) == Failure(N2)
  {
  }

  /** Neither the cap test nor the post-cap formulas look at the reference index. */
  lemma PostCapIgnoresReference(capped: bool, rent: real, ix: Readings, other: Index)
    ensures Variance(C, ix) == Variance(C, ix.(ref := other))
    ensures NewRent(Select(C, capped), rent, ix) == NewRent(Select(C, capped), rent, ix.(ref := other))
  {
  }

  /**
    Common law applies the plain index ratio whatever the cap test says,
    and regime A under the cap yields the same amount.
   */
  lemma CommonLawIgnoresCap(rent: real, ix: Readings)
    ensures NewRent(Select(D, true), rent, ix) == NewRent(Select(D, false), rent, ix)
    ensures NewRent(Select(A, false), rent, ix) == NewRent(Select(D, false), rent, ix)
    ensures NewRent(Select(D, false), rent, ix) == Success(rent * (ix.rev / ix.ref))
  {
    assert Select(D, false) == RevOverRef;
    assert Reads(RevOverRef) == [];
    assert NewRent(RevOverRef, rent, ix) == Success(Amount(RevOverRef, rent, ix));
    assert Amount(RevOverRef, rent, ix) == Scale(rent, ix.rev / ix.ref);
    ScaleIsProduct(rent, ix.rev / ix.ref);
    assert Scale(rent, ix.rev / ix.ref) == rent * (ix.rev / ix.ref);
    assert NewRent(RevOverRef, rent, ix) == Success(rent * (ix.rev / ix.ref));
  }

  /** The badge shown beside the result. */
  datatype Status = CapActivated | UnderCap | CommonLaw

  /**
    The displayed status: common law exactly in regime D; "cap
    activated" exactly when the chosen formula applies the cap.
   */
  function StatusOf(regime: Regime, capped: bool): (s: Status)
    ensures s == CommonLaw <==> regime == D
    ensures s == CapActivated <==> IsCapFormula(Select(regime, capped))
    ensures s == UnderCap <==> regime != D && !capped
  {
    if capped && regime != D then CapActivated
    else if regime != D then UnderCap
    else CommonLaw
  }
}

=== FILE: indices.dfy ===
/**
  The ILC index table and the program's `get_indice_value`: an exact
  match on the quarter text, first matching row wins.
 */
module Indices {
  import opened Wrappers

  /** An ILC index value. Published indices are positive. */
  type Index = r: real | r > 0.0 witness 1.0

  /** The rows of the index spreadsheet, (quarter text, index), in file order. */
  type Table = seq<(string, Index)>

  /**
    The index of the first row whose quarter text equals `key`, or
    `None` when no row matches (in particular when the table is empty).
   */
  function Lookup(table: Table, key: string): (r: Option<Index>)
    ensures r.None? <==> forall i :: 0 <= i < |table| ==> table[i].0 != key
    ensures r.Some? ==> exists i :: 0 <= i < |table| && table[i] == (key, r.value)
                                    && forall j :: 0 <= j < i ==> table[j].0 != key
  {
    if |table| == 0 then None
    else if table[0].0 == key then Some(table[0].1)
    else
      var rest := Lookup(table[1..], key);
      assert forall i :: 1 <= i < |table| ==> table[i] == table[1..][i - 1];
      rest
  }

  /**
    Lookup of a quarter that may itself be missing: the program passes
    the `None` of a failed offset straight to `get_indice_value`, where
    it matches no row.
   */
  function LookupAt(table: Table, key: Option<string>): (r: Option<Index>)
    ensures r.Some? ==> key.Some? && r == Lookup(table, key.value)
    ensures key.Some? ==> r == Lookup(table, key.value)
  {
    match key
    case None => None
    case Some(k) => Lookup(table, k)
  }

  /** Keys of the table are pairwise distinct, as the spreadsheet promises. */
  predicate UniqueKeys(table: Table)
  {
    forall i, j :: 0 <= i < j < |table| ==> table[i].0 != table[j].0
  }

  /** With distinct keys, lookup returns the value stored under the key. */
  lemma LookupUniqueKey(table: Table, i: int)
    requires UniqueKeys(table) && 0 <= i < |table|
    ensures Lookup(table, table[i].0) == Some(table[i].1)
  {
  }

  /**
    Lookup in a concatenation prefers the first part: rows appended after
    a match never change the answer.
   */
  lemma {:induction false} LookupAppend(front: Table, back: Table, key: string)
    ensures Lookup(front + back, key)
            == if Lookup(front, key).Some? then Lookup(front, key) else Lookup(back, key)
  {
    if |front| > 0 && front[0].0 != key {
      assert (front + back)[1..] == front[1..] + back;
      LookupAppend(front[1..], back, key);
    } else if |front| == 0 {
      assert front + back == back;
    }
  }
}

=== FILE: quarters.dfy ===
/**
  Revision quarters written `YEAR-T<number>` (for example `2024-T2`):
  parsing, printing, and the whole-year offset used to find the
  reference quarter (three years back) and the two intermediate quarters
  (one and two years back).
 */
module Quarters {
  import opened Wrappers
  import opened Text

  /**
    A quarter as parsed from its text. The program does not range-check
    `number`; only the index table decides which quarters exist.
   */
  datatype Quarter = Quarter(year: int, number: int)

  /** The separator the program splits on. */
  const Separator: string := "-T"

  /** The printed form: the year, the separator, then the quarter number. */
  function Format(q: Quarter): string
  {
    IntToString(q.year) + Separator + IntToString(q.number)
  }

  /**
    Reads a quarter as the program does: the year is the text before the
    first separator, the number the text between the first and second
    separator; both must be integers.
   */
  function Parse(s: string): (r: Option<Quarter>)
    ensures (forall j: nat :: !Occurs(s, Separator, j)) ==> r.None?
    ensures r.Some? ==> ParseInt(Field0(s, Separator)) == Some(r.value.year)
    ensures r.Some? ==> Field1(s, Separator).Some?
                        && ParseInt(Field1(s, Separator).value) == Some(r.value.number)
    ensures r.Some? <==> Field1(s, Separator).Some? && ParseInt(Field0(s, Separator)).Some?
                         && ParseInt(Field1(s, Separator).value).Some?
  {
    match Field1(s, Separator)
    case None => None
    case Some(numberText) =>
      match (ParseInt(Field0(s, Separator)), ParseInt(numberText))
      case (Some(y), Some(n)) => Some(Quarter(y, n))
      case _ => None
  }

  /** A printed integer never contains the separator: it has no `T`. */
  lemma NoSeparatorInInt(i: int)
    ensures forall j: nat :: !Occurs(IntToString(i), Separator, j)
  {
    var t := IntToString(i);
    forall j: nat
      ensures !Occurs(t, Separator, j)
    {
      if j + 2 <= |t| {
        assert t[j..j + 2][1] == t[j + 1];
      }
    }
  }

  /** Splitting a printed quarter at its first separator gives back its two numerals. */
  lemma SplitFormat(q: Quarter)
    ensures SplitFirst(Format(q), Separator)
            == Some((IntToString(q.year), IntToString(q.number)))
  {
    var y, n := IntToString(q.year), IntToString(q.number);
    var s := Format(q);
    assert s[|y|..|y| + 2] == Separator;
    assert Occurs(s, Separator, |y|);
    var r := SplitFirst(s, Separator);
    forall j: nat | j < |y|
      ensures !Occurs(s, Separator, j)
    {
      if j + 1 < |y| {
        assert s[j..j + 2][1] == s[j + 1] == y[j + 1];
      } else {
        assert s[j..j + 2][0] == s[j] == y[|y| - 1];
      }
    }
    var k := |r.value.0|;
    assert k == |y|;
    assert r.value.0 == s[..k] == y;
    assert r.value.1 == s[k + 2..] == n;
  }

  /** Parsing a printed quarter gives the quarter back. */
  lemma ParseFormat(q: Quarter)
    ensures Parse(Format(q)) == Some(q)
  {
    var n := IntToString(q.number);
    SplitFormat(q);
    NoSeparatorInInt(q.number);
    assert Field0(n, Separator) == n;
    ParseIntToString(q.year);
    ParseIntToString(q.number);
  }

  /**
    The program's `get_offset_trimestre(s, years_back)`: the quarter
    `years_back` whole years earlier, same quarter number, or `None`
    when `s` does not parse.
   */
  function Offset(s: string, yearsBack: int): (r: Option<string>)
    ensures r.Some? <==> Parse(s).Some?
    ensures r.Some? ==> Parse(r.value)
                        == Some(Quarter(Parse(s).value.year - yearsBack, Parse(s).value.number))
    ensures r.Some? ==> r.value == Format(Parse(r.value).value)
  {
    var parsed := Parse(s);
    if parsed.None? then None
    else
      var moved := Quarter(parsed.value.year - yearsBack, parsed.value.number);
      ParseFormat(moved);
      Some(Format(moved))
  }

  /** On a printed quarter the offset keeps the number and subtracts exactly `yearsBack`. */
  lemma OffsetFormat(q: Quarter, yearsBack: int)
    ensures Offset(Format(q), yearsBack) == Some(Format(Quarter(q.year - yearsBack, q.number)))
  {
    ParseFormat(q);
  }

  /** An offset of zero years leaves a printed quarter unchanged. */
  lemma OffsetZero(q: Quarter)
    ensures Offset(Format(q), 0) == Some(Format(q))
  {
    OffsetFormat(q, 0);
    assert Quarter(q.year - 0, q.number) == q;
  }

  /** Offsets compose additively, whatever text they start from. */
  lemma OffsetCompose(s: string, a: int, b: int)
    ensures Offset(s, a).Some? ==> Offset(Offset(s, a).value, b) == Offset(s, a + b)
  {
  }

  /**
    The year as the regime classifier reads it: the integer before the
    first dash, splitting on the dash alone rather than on the separator.
   */
  function YearForClassifier(s: string): (r: Option<int>)
    ensures r.Some? ==> r.value >= 0
  {
    ParseInt(Field0(s, "-"))
  }

  /**
    Whenever both readings of the year succeed they agree, so the
    classifier sees the same year as the offsets.
   */
  lemma YearForClassifierAgrees(s: string)
    ensures Parse(s).Some? && YearForClassifier(s).Some? ==>
              YearForClassifier(s).value == Parse(s).value.year
  {
    if Parse(s).Some? && YearForClassifier(s).Some? {
      YearTextIsNumeral(s);
      YearTextEndsAtDash(s);
      NumeralBeforeDash(s, Field0(s, Separator));
    }
  }

  /** When both readings succeed, the year text before the separator is a plain numeral. */
  lemma YearTextIsNumeral(s: string)
    ensures Parse(s).Some? && YearForClassifier(s).Some? ==> IsNumeral(Field0(s, Separator))
  {
    if Parse(s).Some? && YearForClassifier(s).Some? {
      LeadingDash(s);
      assert ParseInt([]) == None;
      assert Field0(s, Separator)[0] == s[0];
    }
  }

  /** In a parsable quarter the separator, and so a dash, follows the year text. */
  lemma YearTextEndsAtDash(s: string)
    requires Parse(s).Some?
    ensures var y := Field0(s, Separator); |y| < |s| && s[|y|] == '-'
  {
    var y := Field0(s, Separator);
    assert |y| < |s|;
    assert s[|y|..|y| + 2][0] == s[|y|];
  }

  /** On printed quarters the classifier's reading fails exactly for negative years. */
  lemma YearForClassifierOfFormat(q: Quarter)
    ensures YearForClassifier(Format(q)) == if q.year >= 0 then Some(q.year) else None
  {
    var s := Format(q);
    var y := IntToString(q.year);
    if q.year >= 0 {
      assert s[|y|] == '-';
      assert Occurs(s, "-", |y|);
      var p := Field0(s, "-");
      assert p == y;
      ParseIntToString(q.year);
    } else {
      assert Occurs(s, "-", 0);
      assert Field0(s, "-") == [];
    }
  }
}

=== FILE: regimes.dfy ===
/**
  The legal regime of a revision. The program encodes the revision
  quarter as the decimal `year + number/10` and tests it against three
  inclusive ranges in order; here the same test runs on the exact
  integer `year * 10 + number`, which is ten times that decimal.
 */
module Regimes {

  /**
    A: initial cap period; B: intermediate cap period;
    C: post-cap period; D: common law (no cap).
   */
  datatype Regime = A | B | C | D

  /**
    The classifier key of a quarter: ten times `year + number/10`. For a
    one-digit quarter number the key keeps both parts apart.
   */
  function Key(year: int, number: int): (k: int)
    ensures 0 <= number < 10 ==> k / 10 == year && k % 10 == number
    ensures k as real == 10.0 * (year as real + number as real / 10.0)
  {
    year * 10 + number
  }

  /**
    The chain of inclusive range tests, first match wins, D by default:
    exactly the first-match reading of the bracket table.
   */
  function Classify(key: int): (r: Regime)
    ensures r == FirstBracket(Brackets, key)
  {
    var afterA := Brackets[1..];
    var afterB := afterA[1..];
    var afterC := afterB[1..];
    assert afterA == [Bracket(20232, 20241, B), Bracket(20242, 20261, C)];
    assert afterB == [Bracket(20242, 20261, C)];
    assert afterC == [];
    assert FirstBracket(afterC, key) == D;
    assert FirstBracket(afterB, key) == if 20242 <= key <= 20261 then C else D;
    assert FirstBracket(afterA, key)
           == if 20232 <= key <= 20241 then B else FirstBracket(afterB, key);
    if 20222 <= key <= 20231 then A
    else if 20232 <= key <= 20241 then B
    else if 20242 <= key <= 20261 then C
    else D
  }

  /** One row of the classifier written as data: an inclusive key range and its regime. */
  datatype Bracket = Bracket(low: int, high: int, regime: Regime)

  /** The cap periods as an ordered table. */
  const Brackets: seq<Bracket> :=
    [Bracket(20222, 20231, A), Bracket(20232, 20241, B), Bracket(20242, 20261, C)]

  /** Whether a bracket's inclusive range holds the key. */
  predicate Holds(bracket: Bracket, key: int)
  {
    bracket.low <= key <= bracket.high
  }

  /** First-match lookup in an ordered table of brackets, D when none holds the key. */
  function FirstBracket(brackets: seq<Bracket>, key: int): (r: Regime)
    ensures (forall i :: 0 <= i < |brackets| ==> !Holds(brackets[i], key)) ==> r == D
    ensures r != D ==> exists i :: 0 <= i < |brackets| && Holds(brackets[i], key)
                                   && brackets[i].regime == r
    ensures forall i :: 0 <= i < |brackets| && Holds(brackets[i], key)
                        && (forall j :: 0 <= j < i ==> !Holds(brackets[j], key))
                        ==> r == brackets[i].regime
  {
    if |brackets| == 0 then D
    else if Holds(brackets[0], key) then brackets[0].regime
    else
      var rest := brackets[1..];
      var r := FirstBracket(rest, key);
      assert forall i :: 1 <= i < |brackets| ==> brackets[i] == rest[i - 1];
      r
  }

  /** Calendar order on (year, number) pairs. */
  predicate CalendarLe(y1: int, n1: int, y2: int, n2: int)
  {
    y1 < y2 || (y1 == y2 && n1 <= n2)
  }

  /** For quarter numbers 1 to 4 the key orders quarters as the calendar does. */
  lemma KeyOrderIsCalendarOrder(y1: int, n1: int, y2: int, n2: int)
    requires 1 <= n1 <= 4 && 1 <= n2 <= 4
    ensures Key(y1, n1) <= Key(y2, n2) <==> CalendarLe(y1, n1, y2, n2)
  {
  }

  /**
    The regimes in calendar terms: A runs from 2022-T2 to 2023-T1, B from
    2023-T2 to 2024-T1, C from 2024-T2 to 2026-T1, all inclusive, and D
    is everything before or after; so every valid quarter has exactly
    one regime, with neither gap nor overlap between consecutive periods.
   */
  lemma ClassifyByCalendar(year: int, number: int)
    requires 1 <= number <= 4
    ensures Classify(Key(year, number)) == A
            <==> CalendarLe(2022, 2, year, number) && CalendarLe(year, number, 2023, 1)
    ensures Classify(Key(year, number)) == B
            <==> CalendarLe(2023, 2, year, number) && CalendarLe(year, number, 2024, 1)
    ensures Classify(Key(year, number)) == C
            <==> CalendarLe(2024, 2, year, number) && CalendarLe(year, number, 2026, 1)
    ensures Classify(Key(year, number)) == D
            <==> !CalendarLe(2022, 2, year, number) || !CalendarLe(year, number, 2026, 1)
  {
    KeyOrderIsCalendarOrder(2022, 2, year, number);
    KeyOrderIsCalendarOrder(year, number, 2023, 1);
    KeyOrderIsCalendarOrder(2023, 2, year, number);
    KeyOrderIsCalendarOrder(year, number, 2024, 1);
    KeyOrderIsCalendarOrder(2024, 2, year, number);
    KeyOrderIsCalendarOrder(year, number, 2026, 1);
  }

  /** The quarters on either side of each period boundary. */
  lemma ClassifyBoundaries()
    ensures Classify(Key(2022, 1)) == D && Classify(Key(2022, 2)) == A
    ensures Classify(Key(2023, 1)) == A && Classify(Key(2023, 2)) == B
    ensures Classify(Key(2024, 1)) == B && Classify(Key(2024, 2)) == C
    ensures Classify(Key(2026, 1)) == C && Classify(Key(2026, 2)) == D
  {
  }
}

=== FILE: scenarios.dfy ===
/**
  Worked revisions, evaluated end to end from the quarter text, on small
  index tables keyed by the printed quarters around a revision quarter.
 */
module Scenarios {
  import opened Wrappers
  import opened Indices
  import opened Quarters
  import opened Regimes
  import opened CapTest
  import opened Formulas
  import opened Engine
  import opened RealArith

  /** The same quarter `years` years earlier. */
  function Back(q: Quarter, years: int): Quarter
  {
    Quarter(q.year - years, q.number)
  }

  /** Distinct quarters print to distinct keys, since printing is undone by parsing. */
  lemma DistinctKeys(q: Quarter, a: int, b: int)
    requires a != b
    ensures Format(Back(q, a)) != Format(Back(q, b))
  {
    ParseFormat(Back(q, a));
    ParseFormat(Back(q, b));
  }

  /**
    A table with the reference quarter (three years back), N-1 and the
    revision quarter itself; N-2 is missing.
   */
  function TableWithoutN2(q: Quarter, ref: Index, n1: Index, rev: Index): Table
  {
    [(Format(Back(q, 3)), ref), (Format(Back(q, 1)), n1), (Format(Back(q, 0)), rev)]
  }

  /** The keys of that table are distinct, and none of them is N-2. */
  lemma KeysWithoutN2(q: Quarter, ref: Index, n1: Index, rev: Index)
    ensures UniqueKeys(TableWithoutN2(q, ref, n1, rev))
    ensures forall i :: 0 <= i < 3 ==> TableWithoutN2(q, ref, n1, rev)[i].0 != Format(Back(q, 2))
  {
    var t := TableWithoutN2(q, ref, n1, rev);
    assert t[0].0 == Format(Back(q, 3)) && t[1].0 == Format(Back(q, 1)) && t[2].0 == Format(Back(q, 0));
    assert UniqueKeys(t) by {
      DistinctKeys(q, 3, 1);
      DistinctKeys(q, 3, 0);
      DistinctKeys(q, 1, 0);
    }
    DistinctKeys(q, 2, 3);
    DistinctKeys(q, 2, 1);
    DistinctKeys(q, 2, 0);
  }

  /** What that table answers for the four quarters a revision at `q` asks about. */
  lemma LookupsWithoutN2(q: Quarter, ref: Index, n1: Index, rev: Index)
    ensures var t := TableWithoutN2(q, ref, n1, rev);
            && Lookup(t, Format(Back(q, 0))) == Some(rev)
            && Lookup(t, Format(Back(q, 3))) == Some(ref)
            && Lookup(t, Format(Back(q, 1))) == Some(n1)
            && Lookup(t, Format(Back(q, 2))) == None
  {
    var t := TableWithoutN2(q, ref, n1, rev);
    KeysWithoutN2(q, ref, n1, rev);
    LookupUniqueKey(t, 0);
    LookupUniqueKey(t, 1);
    LookupUniqueKey(t, 2);
  }

  /** How a printed quarter reads back: the quarter itself, its offsets and its year. */
  lemma ReadingsOfFormat(q: Quarter)
    requires q.year >= 0
    ensures Parse(Format(q)) == Some(q)
    ensures YearForClassifier(Format(q)) == Some(q.year)
    ensures Offset(Format(q), 1) == Some(Format(Back(q, 1)))
    ensures Offset(Format(q), 2) == Some(Format(Back(q, 2)))
    ensures Offset(Format(q), 3) == Some(Format(Back(q, 3)))
  {
    ParseFormat(q);
    OffsetFormat(q, 1);
    OffsetFormat(q, 2);
    OffsetFormat(q, 3);
    YearForClassifierOfFormat(q);
  }

  /** The plan once both mandatory indices are found in a well-formed quarter. */
  lemma PrepareFound(table: Table, q: Quarter, ix: Readings)
    requires |table| > 0 && q.year >= 0
    requires Lookup(table, Format(Back(q, 0))) == Some(ix.rev)
    requires Lookup(table, Format(Back(q, 3))) == Some(ix.ref)
    requires Lookup(table, Format(Back(q, 1))) == ix.n1
    requires Lookup(table, Format(Back(q, 2))) == ix.n2
    ensures var regime := Classify(Key(q.year, q.number));
            var g := Variance(regime, ix);
            Prepare(table, Format(q))
            == Success(Plan(regime, ix, g, Capped(g), Select(regime, Capped(g))))
  {
    assert Back(q, 0) == q;
    ReadingsOfFormat(q);
    PrepareOnText(table, Format(q), q, ix);
  }

  /** The plan for a quarter text that parses, once its four lookups are known. */
  lemma PrepareOnText(table: Table, s: string, q: Quarter, ix: Readings)
    requires |table| > 0 && Parse(s) == Some(q) && YearForClassifier(s) == Some(q.year)
    requires Lookup(table, s) == Some(ix.rev)
    requires LookupAt(table, Offset(s, 3)) == Some(ix.ref)
    requires LookupAt(table, Offset(s, 1)) == ix.n1
    requires LookupAt(table, Offset(s, 2)) == ix.n2
    ensures var regime := Classify(Key(q.year, q.number));
            var g := Variance(regime, ix);
            Prepare(table, s) == Success(Plan(regime, ix, g, Capped(g), Select(regime, Capped(g))))
  {
  }

  /** Outside regime C, the change is measured over the year ending at the revision quarter. */
  lemma VarianceOutsideC(regime: Regime, ix: Readings)
    requires regime != C && ix.n1.Some?
    ensures Variance(regime, ix) == Glissement(ix.rev / ix.n1.value - 1.0, CurrentYear)
  {
  }

  /** The capped N-1 formula scales the rent by N-1 over the reference, then by 1.035. */
  lemma AmountCappedN1(rent: real, ix: Readings)
    requires ix.n1.Some?
    ensures Available(ix, Reads(CappedN1OverRef))
    ensures Amount(CappedN1OverRef, rent, ix) == Scale(Scale(rent, ix.n1.value / ix.ref), CapFactor)
  {
    assert Reads(CappedN1OverRef)[0] == N1;
  }

  /** The readings of the regime A scenario: 120, then 130 at N-1, then 137. */
  function ReadingsA(): Readings
  {
    Readings(137.0, 120.0, Some(130.0), None)
  }

  /** Outside regime C the index rose by 137/130 - 1, about 5.4 %, over the year. */
  lemma VarianceOfReadingsA(regime: Regime)
    requires regime != C
    ensures Variance(regime, ReadingsA()) == Glissement(137.0 / 130.0 - 1.0, CurrentYear)
    ensures Capped(Variance(regime, ReadingsA()))
  {
    VarianceOutsideC(regime, ReadingsA());
  }

  /** The capped formula on those readings, for a rent of 1000. */
  lemma AmountOfReadingsA()
    ensures Available(ReadingsA(), Reads(CappedN1OverRef))
    ensures Amount(CappedN1OverRef, 1000.0, ReadingsA()) == 1121.25
    ensures Factor(CappedN1OverRef, ReadingsA()) == 130.0 / 120.0 * 1.035
  {
    AmountCappedN1(1000.0, ReadingsA());
    assert Scale(1000.0, 130.0 / 120.0) == 3250.0 / 3.0;
    assert Scale(3250.0 / 3.0, CapFactor) == 1121.25;
  }

  /** The decisions for a regime A revision on the scenario table, before the rent enters. */
  lemma PlanInRegimeA(q: Quarter)
    requires q.year >= 0 && Classify(Key(q.year, q.number)) == A
    ensures Prepare(TableWithoutN2(q, 120.0, 130.0, 137.0), Format(q))
            == Success(Plan(A, ReadingsA(), Glissement(137.0 / 130.0 - 1.0, CurrentYear),
                            true, CappedN1OverRef))
  {
    LookupsWithoutN2(q, 120.0, 130.0, 137.0);
    PrepareFound(TableWithoutN2(q, 120.0, 130.0, 137.0), q, ReadingsA());
    VarianceOfReadingsA(A);
  }

  /**
    A regime A revision (for instance 2023-T1) where the index rose from
    130 to 137 over the year: the cap applies and a rent of 1000 becomes
    1000 × 130/120 × 1.035 = 1121.25, with the "cap activated" badge.
   */
  lemma CappedRevisionInRegimeA(q: Quarter)
    requires q.year >= 0 && Classify(Key(q.year, q.number)) == A
    ensures Compute(TableWithoutN2(q, 120.0, 130.0, 137.0), 1000.0, Format(q))
            == Success(RevisionResult(A, ReadingsA(), Glissement(137.0 / 130.0 - 1.0, CurrentYear),
                                      true, CappedN1OverRef, 130.0 / 120.0 * 1.035, 1121.25,
                                      CapActivated))
  {
    PlanInRegimeA(q);
    AmountOfReadingsA();
  }

  /**
    The same table read by a regime B revision (for instance 2023-T2):
    the rise still triggers the cap, and the capped formula asks for N-2,
    which is missing, so the engine reports it instead of a rent.
   */
  lemma CappedRevisionInRegimeBMissesN2(q: Quarter, rent: real)
    requires q.year >= 0 && Classify(Key(q.year, q.number)) == B
    ensures Compute(TableWithoutN2(q, 120.0, 130.0, 137.0), rent, Format(q))
            == Failure(MissingIntermediate(N2))
  {
    PlanInRegimeB(q);
    CappedN2MissesN2(rent);
  }

  /** On those readings the capped regime B formula stops at the missing N-2. */
  lemma CappedN2MissesN2(rent: real)
    ensures NewRent(CappedN2OverRef, rent, ReadingsA()) == Failure(N2)
  {
    assert Reads(CappedN2OverRef) == [N2];
    assert Intermediate(ReadingsA(), Reads(CappedN2OverRef)[0]).None?;
  }

  /** The decisions for a regime B revision on the same table: the cap is triggered. */
  lemma PlanInRegimeB(q: Quarter)
    requires q.year >= 0 && Classify(Key(q.year, q.number)) == B
    ensures Prepare(TableWithoutN2(q, 120.0, 130.0, 137.0), Format(q))
            == Success(Plan(B, ReadingsA(), Glissement(137.0 / 130.0 - 1.0, CurrentYear),
                            true, CappedN2OverRef))
  {
    LookupsWithoutN2(q, 120.0, 130.0, 137.0);
    PrepareFound(TableWithoutN2(q, 120.0, 130.0, 137.0), q, ReadingsA());
    VarianceOfReadingsA(B);
  }

  /** Regime B readings with a 5 % rise over the year: reference 100, N-2 104, N-1 120, revision 126. */
  function ReadingsB(): Readings
  {
    Readings(126.0, 100.0, Some(120.0), Some(104.0))
  }

  /** Regime B with the cap: 1000 × 104/100 × 1.035² = 1114.074. */
  lemma CappedValueInRegimeB()
    ensures Capped(Variance(B, ReadingsB()))
    ensures NewRent(Select(B, true), 1000.0, ReadingsB()) == Success(1114.074)
  {
    assert Reads(CappedN2OverRef) == [N2];
    assert Scale(1000.0, 104.0 / 100.0) == 1040.0;
    assert Scale(1040.0, CapFactor * CapFactor) == 1114.074;
  }

  /**
    The uncapped regime B formula on the same readings would give
    1000 × 104/100 × 1.035 × 126/120 = 1130.22, more than the capped rent.
   */
  lemma UncappedFormulaValueInRegimeB()
    ensures NewRent(N2OverRefThenRevOverN1, 1000.0, ReadingsB()) == Success(1130.22)
  {
    assert Reads(N2OverRefThenRevOverN1) == [N2, N1];
    assert Scale(1000.0, 104.0 / 100.0) == 1040.0;
    assert Scale(1040.0, CapFactor) == 1076.4;
    assert Scale(1076.4, 126.0 / 120.0) == 1130.22;
  }

  /** Regime B under the cap (a 2 % rise): 1000 × 104/100 × 1.035 × 122.4/120 = 1097.928. */
  lemma UncappedValueInRegimeB()
    ensures !Capped(Variance(B, Readings(122.4, 100.0, Some(120.0), Some(104.0))))
    ensures NewRent(Select(B, false), 1000.0, Readings(122.4, 100.0, Some(120.0), Some(104.0)))
            == Success(1097.928)
  {
    assert Reads(N2OverRefThenRevOverN1) == [N2, N1];
    assert Scale(1000.0, 104.0 / 100.0) == 1040.0;
    assert Scale(1040.0, CapFactor) == 1076.4;
    assert Scale(1076.4, 122.4 / 120.0) == 1097.928;
  }

  /** Regime C where the previous year rose 4 % (N-2 100, N-1 104): 1000 × 1.035² × 130/104 = 1339.03125. */
  lemma CappedValueInRegimeC()
    ensures Capped(Variance(C, Readings(130.0, 100.0, Some(104.0), Some(100.0))))
    ensures NewRent(Select(C, true), 1000.0, Readings(130.0, 100.0, Some(104.0), Some(100.0)))
            == Success(1339.03125)
  {
    assert Reads(CappedRevOverN1) == [N1];
    assert Scale(1000.0, CapFactor * CapFactor) == 1071.225;
    assert Scale(1071.225, 130.0 / 104.0) == 1339.03125;
  }

  /**
    Regime C where the previous year rose under 3.5 % (N-2 125, N-1 127):
    1000 × 1.035 × 137/125 = 1134.36.
   */
  lemma UncappedValueInRegimeC()
    ensures !Capped(Variance(C, Readings(137.0, 120.0, Some(127.0), Some(125.0))))
    ensures NewRent(Select(C, false), 1000.0, Readings(137.0, 120.0, Some(127.0), Some(125.0)))
            == Success(1134.36)
  {
    assert Reads(RevOverN2) == [N2];
    assert Scale(1000.0, CapFactor) == 1035.0;
    assert Scale(1035.0, 137.0 / 125.0) == 1134.36;
  }
}

=== FILE: text.dfy ===
/**
  The small amount of string handling the revision engine relies on:
  Python's `str.split(sep)` (only its first two fields are ever read),
  `int(...)` on a decimal numeral, and `str(n)` on an integer.
 */
module Text {
  import opened Wrappers

  /** `sep` occurs in `s` starting at position `i`. */
  predicate Occurs(s: string, sep: string, i: nat)
  {
    i + |sep| <= |s| && s[i..i + |sep|] == sep
  }

  /** Leftmost occurrence of `sep` in `s` at or after position `i`. */
  function FindFrom(s: string, sep: string, i: nat): (r: Option<nat>)
    requires |sep| > 0 && i <= |s|
    ensures r.Some? ==> i <= r.value && Occurs(s, sep, r.value)
    ensures r.Some? ==> forall j: nat :: i <= j < r.value ==> !Occurs(s, sep, j)
    ensures r.None? ==> forall j: nat :: i <= j ==> !Occurs(s, sep, j)
    decreases |s| - i
  {
    if i + |sep| > |s| then None
    else if s[i..i + |sep|] == sep then Some(i)
    else FindFrom(s, sep, i + 1)
  }

  /** Splits `s` around the leftmost occurrence of `sep`, if there is one. */
  function SplitFirst(s: string, sep: string): (r: Option<(string, string)>)
    requires |sep| > 0
    ensures r.None? <==> forall j: nat :: !Occurs(s, sep, j)
    ensures r.Some? ==> s == r.value.0 + sep + r.value.1
    ensures r.Some? ==> Occurs(s, sep, |r.value.0|)
    ensures r.Some? ==> forall j: nat :: j < |r.value.0| ==> !Occurs(s, sep, j)
  {
    match FindFrom(s, sep, 0)
    case None => None
    case Some(i) =>
      assert s == s[..i] + sep + s[i + |sep|..];
      Some((s[..i], s[i + |sep|..]))
  }

  /** Python's `s.split(sep)[0]`: everything before the first `sep`. */
  function Field0(s: string, sep: string): (r: string)
    requires |sep| > 0
    ensures r <= s
    ensures forall j: nat :: j < |r| ==> !Occurs(s, sep, j)
    ensures |r| < |s| ==> Occurs(s, sep, |r|)
  {
    match SplitFirst(s, sep)
    case None => s
    case Some((before, _)) => before
  }

  /** A prefix followed by the first occurrence of `sep` is exactly `s.split(sep)[0]`. */
  lemma Field0At(s: string, sep: string, t: string)
    requires |sep| > 0 && t <= s && Occurs(s, sep, |t|)
    requires forall j: nat :: j < |t| ==> !Occurs(s, sep, j)
    ensures Field0(s, sep) == t
  {
    var r := Field0(s, sep);
    assert |r| <= |t|;
    assert |r| >= |t|;
  }

  /** Text that starts with a dash has an empty first dash-separated field. */
  lemma LeadingDash(s: string)
    ensures |s| > 0 && s[0] == '-' ==> Field0(s, "-") == []
  {
    if |s| > 0 && s[0] == '-' {
      assert s[0..1] == "-";
      assert Occurs(s, "-", 0);
    }
  }

  /** A numeral followed by a dash is the first dash-separated field. */
  lemma NumeralBeforeDash(s: string, t: string)
    requires IsNumeral(t) && t <= s && |t| < |s| && s[|t|] == '-'
    ensures Field0(s, "-") == t
  {
    assert s[|t|..|t| + 1] == "-";
    forall j: nat | j < |t|
      ensures !Occurs(s, "-", j)
    {
      assert s[j..j + 1][0] == s[j] == t[j];
    }
    Field0At(s, "-", t);
  }

  /**
    Python's `s.split(sep)[1]`: the text between the first and the second
    `sep` (or to the end); `None` where Python raises IndexError because
    `sep` does not occur.
   */
  function Field1(s: string, sep: string): (r: Option<string>)
    requires |sep| > 0
    ensures r.None? <==> forall j: nat :: !Occurs(s, sep, j)
    ensures r.Some? ==> exists i: nat :: Occurs(s, sep, i) && r.value <= s[i + |sep|..]
  {
    match SplitFirst(s, sep)
    case None => None
    case Some((before, after)) =>
      assert Occurs(s, sep, |before|);
      assert s[|before| + |sep|..] == after;
      Some(Field0(after, sep))
  }

  /**
    The second field exactly: the separator occurs right after the first
    field, and the second field is the first field of what follows it.
   */
  lemma Field1IsSecondField(s: string, sep: string)
    requires |sep| > 0
    ensures Field1(s, sep).Some? ==>
              && Occurs(s, sep, |Field0(s, sep)|)
              && Field1(s, sep).value == Field0(s[|Field0(s, sep)| + |sep|..], sep)
  {
    match SplitFirst(s, sep)
    case None =>
    case Some((before, after)) =>
      assert Field0(s, sep) == before;
      assert s[|before| + |sep|..] == after;
  }

  predicate IsDigit(c: char)
  {
    '0' <= c <= '9'
  }

  predicate AllDigits(s: string)
  {
    forall i :: 0 <= i < |s| ==> IsDigit(s[i])
  }

  /** A non-empty run of decimal digits. */
  predicate IsNumeral(s: string)
  {
    |s| > 0 && AllDigits(s)
  }

  function DigitValue(c: char): (d: nat)
    requires IsDigit(c)
    ensures d < 10
  {
    (c as int) - ('0' as int)
  }

  function DigitChar(d: nat): (c: char)
    requires d < 10
    ensures IsDigit(c) && DigitValue(c) == d
  {
    (('0' as int) + d) as char
  }

  /** The value of a run of decimal digits, most significant first. */
  function DigitsValue(s: string): nat
    requires AllDigits(s)
  {
    if |s| == 0 then 0
    else 10 * DigitsValue(s[..|s| - 1]) + DigitValue(s[|s| - 1])
  }

  /** Python's `str(n)` for a natural number: shortest decimal numeral. */
  function NatToString(n: nat): (s: string)
    ensures IsNumeral(s)
    ensures DigitsValue(s) == n
    ensures |s| > 1 ==> s[0] != '0'
  {
    if n < 10 then [DigitChar(n)]
    else
      var prefix := NatToString(n / 10);
      var s := prefix + [DigitChar(n % 10)];
      assert s[..|s| - 1] == prefix;
      s
  }

  /** Python's `str(i)` for an integer: a minus sign only for negatives. */
  function IntToString(i: int): (s: string)
    ensures |s| > 0 && IsDigit(s[|s| - 1])
    ensures forall k :: 0 <= k < |s| ==> IsDigit(s[k]) || (k == 0 && s[k] == '-')
    ensures s[0] == '-' <==> i < 0
  {
    if i < 0 then "-" + NatToString(-i) else NatToString(i)
  }

  /**
    Python's `int(s)` restricted to an optional minus sign followed by
    decimal digits; `None` where Python raises ValueError.
   */
  function ParseInt(s: string): (r: Option<int>)
    ensures r.Some? <==> IsNumeral(s) || (|s| > 1 && s[0] == '-' && IsNumeral(s[1..]))
    ensures r.Some? && IsNumeral(s) ==> r.value >= 0
    ensures r.Some? && IsNumeral(s) ==> r.value == DigitsValue(s) as int
    ensures r.Some? && !IsNumeral(s) ==> |s| > 1 && r.value == 0 - DigitsValue(s[1..]) as int
  {
    if |s| > 0 && s[0] == '-' then
      if IsNumeral(s[1..]) then Some(0 - DigitsValue(s[1..]) as int) else None
    else if IsNumeral(s) then Some(DigitsValue(s))
    else None
  }

  /** Printing an integer and reading it back gives the integer. */
  lemma ParseIntToString(i: int)
    ensures ParseInt(IntToString(i)) == Some(i)
  {
    if i < 0 {
      var s := IntToString(i);
      assert s[1..] == NatToString(-i);
    }
  }
}

=== FILE: wrappers.dfy ===
/** Failure-carrying datatypes shared by the rent-revision model. */
module Wrappers {

  /** A value that may be absent: Python's `None` versus a present value. */
  datatype Option<+T> = None | Some(value: T)

  /** The outcome of a computation that can fail with an error of type E. */
  datatype Result<+T, +E> = Success(value: T) | Failure(error: E)
}
